=== FILE: README.md ===
# Execution context of a JVM-style interpreter, in Dafny

This project models the per-thread execution context of a bytecode interpreter
(`context.js`): the frame stack whose callee locals alias the caller's operand
stack, per-object reentrant monitors with FIFO waiter queues, recursive and
memoized class initialization, raising a runtime exception by pushing a
synthetic frame, materializing host strings as managed strings, and the
argument layout and rendering of the back trace.

Everything is a pure function over immutable records:

- `Frames` — `Frame(methodInfo, stack, localsBase)` and `Context(id, thread, frames)`.
  A callee's locals are its caller's stack, so `Locals(frames, i)` is
  `frames[i-1].stack`; the aliasing is held once rather than copied.
  `PushFrame` / `PopFrame` return the new context and the frame the source
  returns. What a callee does while it runs is a sequence of `Step`s: it
  replaces its own operand stack, or stores into local `i`, which writes
  the caller's stack at `localsBase + i` (`Run`). The outcome of an
  operation is `Done`, `Pause` or `Yield`.
- `Monitors` — a lock table `map<ObjId, Lock>`; an object without an entry has
  no lock. Waking the waiters of a released lock appends them, in queue order,
  to an abstract FIFO of scheduled contexts, in place of the host's zero-delay
  timer. The not-the-owner diagnostic is a `warned` flag with no other effect.
- `ClassInit` — a class table with a `rank` per class (a superclass ranks
  strictly lower), which makes the superclass recursion terminate; the
  static initializer lookup is a given map from class to method.
- `Exceptions` — the synthetic method template (nine constant-pool entries and
  the ten code bytes) and `RaiseException`, which pushes it and yields.
- `JavaStrings` — `NewString` (the char-array loop) and the decoding of a
  managed string back to host text.
- `BackTraces` — slot offsets of arguments, rendering of object arguments,
  and one line per frame.

The popFrame quirk is kept as written: a callee whose locals base is exactly 0
does not truncate its caller's stack. A call that consumed the caller's
whole stack therefore returns to a caller whose stack is the callee's final
locals: the arguments, overwritten by every local the callee stored and
extended by every local it stored past them (`Frames.PushPopZeroBase`,
`Frames.ZeroBaseKeepsStoredLocal`). With a non-zero base the caller's stack
is cut back to that base, so the stored locals disappear with the arguments
(`Frames.PushPopRoundTrip`).

The synthetic exception code carries the operands 0 (for `new`), 2 (for `ldc`)
and 4 (for `invokespecial`). In the template's constant pool those slots hold
the unused entry, the class-name text and the message text. The class,
string and method entries that reference them are at 1, 3 and 5
(`Exceptions.TemplateOperandTargets`, `Exceptions.ExceptionMethod`).
`RaiseException` pushes the bytes as written; a template whose operands are
1, 3 and 5 and resolve is given beside it (see Findings).

The back trace reads parameter k at `localsBase` plus the widths of the
parameters before it, starting from slot 0, as the code does. If the
interpreter passes an instance method's receiver in local 0, as the JVM
convention has it, the line of such a frame shows the receiver in place of
the first argument and never reads the last one. How invocations fill the
locals is not part of this model, so this stays an observation.

A push consuming k > 0 values followed by a pop leaves the caller's stack k
values shorter: popFrame cuts it back to the callee's locals base, which lies
below the consumed arguments. With no consumed values on a non-empty stack,
as for static initializer and exception frames, the length comes back
unchanged; with base 0 nothing is cut.

pushClassInitFrame pushes the pending static initializers superclass first,
so the subclass's initializer, when it has one, is the current frame
afterwards, and an interpreter that resumes the current frame runs it before
its superclass's
(see Findings).

## Model

| member | source | states |
|---|---|---|
| `Frames.Current` | context.js:10-13 | the current frame exists exactly when the frame list is non-empty, and is its last element |
| `Frames.SetLength` | context.js:28 | assigning a length keeps the common prefix and pads any new slots with holes |
| `Frames.PushFrame` | context.js:15-22 | exactly one frame is appended and becomes current; its base is the caller's stack length minus `consumes`; its locals are the caller's stack, whose top `consumes` values are the callee's first locals; no existing frame changes |
| `Frames.PopFrame` | context.js:24-30 | exactly the top frame is removed and the caller becomes current; the caller's stack is cut to the callee's base when that base is non-zero and left alone when it is 0 |
| `Frames.Run` | context.js:18 | a running callee changes nothing below its caller, keeps its own method and base, and changes its caller only through its locals: the caller's stack is what the stores at base + index make of it |
| `Frames.PushPopRoundTrip` | context.js:15-30 | a call consuming k arguments (base non-zero), whatever the callee does to its own stack and its locals, returns with every frame as before except the caller's stack minus its top k values |
| `Frames.PushPopZeroBase` | context.js:19-28 | a call consuming the caller's whole stack gets base 0, and popping it leaves every frame as before except the caller's stack, which is the arguments as the callee's stores left them |
| `Frames.ZeroBaseKeepsStoredLocal` | context.js:18-28 | a callee that took the caller's only value as local 0 and stored 99 there returns to a caller whose stack is [99] |
| `Monitors.MonitorEnter` | context.js:32-44 | pauses exactly when another thread owns the lock; otherwise the caller owns it with count one higher (1 for a fresh lock, with no waiters); on pause owner and count stay and the caller is appended to the waiters; other locks unchanged; counts stay positive |
| `Monitors.MonitorLeave` | context.js:46-59 | a non-owner gets only the diagnostic and nothing changes; the owner's release keeps the lock with count minus one and the same waiters while that stays positive, and otherwise removes the lock and schedules every waiter, in queue order, after what was already scheduled |
| `Monitors.EnterTimesOwned` | context.js:38-41 | n reentrant enters by the owner all complete and add exactly n to the count |
| `Monitors.LeaveTimesOwned` | context.js:52-58 | n leaves by the owner of a lock held n + j times leave count j, or, for j = 0, remove the lock and schedule its waiters in order; no diagnostic |
| `Monitors.EnterLeaveBalanced` | context.js:32-59 | N enters by one context on an unlocked object followed by N leaves restore the lock table exactly, schedule nothing, never pause and never warn |
| `Monitors.ContendersQueue` | context.js:42-43 | while a thread holds the lock, every enter by other threads pauses, leaves owner and count alone, and queues the contenders in arrival order |
| `Monitors.WakeInOrder` | context.js:55-58 | contenders that queued on a lock held once are all scheduled, in the order they queued, by the owner's release, and the lock disappears |
| `ClassInit.Pending` | context.js:62-65 | the classes an initialization must handle: none for an initialized class, otherwise the class last, each without repetition and uninitialized |
| `ClassInit.InitSelf` | context.js:66-74 | marks the class initialized with fresh static fields and pushes its static initializer, if it has one, with no consumed arguments |
| `ClassInit.PushClassInitFrame` | context.js:61-75 | exactly the pending classes are marked initialized with fresh static fields and nothing else changes; the class is initialized afterwards; one zero-consume frame is pushed per pending class that has a static initializer, superclasses first |
| `ClassInit.PendingIsChainSegment` | context.js:64-65 | the pending classes are consecutive in the superclass chain, root-most first, and the first has no superclass or an initialized one |
| `ClassInit.PendingIsUninitializedChain` | context.js:62-66 | in a table where initialized classes have initialized superclasses, the pending classes are exactly the uninitialized classes of the superclass chain |
| `ClassInit.InitClosedPreserved` | context.js:64-66 | initialization keeps the table well formed and keeps superclasses of initialized classes initialized |
| `ClassInit.WholeChainInitialized` | context.js:61-66 | from a table where initialized classes have initialized superclasses, the class and its whole superclass chain are initialized afterwards |
| `ClassInit.InitializedUntouched` | context.js:62-63 | a class already initialized is left exactly as it was, so its static fields are never reset |
| `ClassInit.Idempotent` | context.js:61-75 | initializing the same class a second time changes neither the context nor the table |
| `ClassInit.SubclassInitializerResumesFirst` | context.js:64-74 | read from the top down, the pushed frames are the pending static initializers subclass first; when the class itself has one, it is the current frame afterwards |
| `ClassInit.SubclassFirstExample` | context.js:64-74 | for a class and its superclass, both uninitialized with static initializers `ma` and `mb`, the frames are resumed in the order [mb, ma] |
| `ClassInit.InitInRunOrder` | context.js:61-75 | the same table update; one fresh frame with no consumed arguments per pending static initializer, pushed subclass first, so that they are resumed root-most first, in the order of the pending classes |
| `ClassInit.SuperclassFirstExample` | context.js:64-74 | for the same class and superclass, the corrected order resumes the frames as [ma, mb] |
| `Exceptions.NormalizeMessage` | context.js:111-113 | an absent message becomes the empty string; a present one, empty or not, is kept |
| `Exceptions.ExceptionMethod` | context.js:114-135 | the template has nine pool entries and the ten fixed code bytes; its class entry names the class, its string entry the message, and its method entry that class's `<init>(Ljava/lang/String;)V` |
| `Exceptions.TemplateOperandTargets` | context.js:116-134 | the code's `new`, `ldc` and `invokespecial` operands are 0, 2 and 4, which name the unused entry and the two text entries, so none of them resolves to a class, a string or a method |
| `Exceptions.ResolvableOperandsResolve` | context.js:116-134 | with operands 1, 3 and 5 the same pool resolves `new` to the class, `ldc` to the message and `invokespecial` to the class's `<init>(Ljava/lang/String;)V` |
| `Exceptions.RaiseException` | context.js:110-138 | signals `Yield`; pushes exactly one frame with no consumed arguments whose code is the fixed ten bytes, whose pool has nine entries with the unused entry at 0, the class name's text at 2 and the message's text at 4; whose class entry 1 resolves to the class name, whose string entry 3 resolves to the message, or to the empty string when the message is absent or empty, and whose method entry 5 resolves to that class's `<init>(Ljava/lang/String;)V` |
| `JavaStrings.FromJavaString` | context.js:99 | decodes exactly `count` chars from `offset` of the char array, and only for a managed string whose offset and count lie inside its array |
| `JavaStrings.NewString` | context.js:140-150 | a managed string whose char array has length \|s\| and holds s's code units in order, with offset 0 and count \|s\|, and which decodes back to s |
| `BackTraces.SlotOffsetStep` | context.js:86-94 | each parameter's slot follows the previous one by one, or by two exactly after a long or a double |
| `BackTraces.RenderObject` | context.js:95-101 | a null object renders as `null`, a managed string as its quoted text, any other object as its class name in angle brackets; a non-object faults, and so does a string the decoder rejects |
| `BackTraces.RenderArgsAtOffsets` | context.js:85-104 | the argument loop renders the k-th argument from slot base + (sum of the widths of the earlier parameters), in order, and faults exactly when one of them does |
| `BackTraces.BackTrace` | context.js:77-108 | the back trace is the newline join of one line per frame, oldest first, and faults exactly when some frame's line does |
| `BackTraces.StringAndIntArguments` | context.js:77-107 | a `(Ljava/lang/String;I)V` method called with ("hi", 5) renders as `Demo.m('hi',5)` |

## Left out

- `run` (context.js:152-161): it only drives the interpreter's one-step executor, which is not part of this model, and swallows `Yield`.
- Scheduling through the host's zero-delay timer (context.js:58) is replaced by appending to an abstract FIFO of scheduled context ids.
- The console diagnostic (context.js:49) is the `warned` flag of `Monitors.Released`; there is no I/O.
- The constructor tag made at initialization (context.js:68-70) is host-object identity with nothing to state beyond being set once.
- Method lookup, object and array allocation, signature parsing and string decoding (context.js:71, 83, 99, 141, 143) belong to collaborators that are not part of this model. The static initializer lookup is the given `clinit` map. Declared methods carry their parsed parameter kinds. Allocation is building the record. `util.fromJavaString` is taken to decode the `count` chars from `offset`.
- Text of primitive arguments in the back trace: the host's number-to-text conversion (floats included) is a given function `show`; only the join's empty text for undefined and null is modelled.
- Host strings and char arrays are sequences of Dafny chars, each standing for one UTF-16 code unit; lone surrogates and the splitting of supplementary characters into two units are not modelled.
- Messages that are not strings (converted by the host's `"" +`) are not modelled; a message is absent or a string.
- Cyclic superclass chains: the table's ranks exclude them. In the source such a chain would never terminate.
- The bottom frame's locals are taken to be empty, because the frame constructor is not part of this model.
- Back trace of a synthetic frame: it has no class name, method name or signature, and is rendered as a fault.
- Frames.PopFrame: requires a caller frame below the popped one; popping the bottom frame (where the source returns no caller, or faults when the base is non-zero) is not modelled.
- Frames.PushFrame: requires a current frame and `consumes` at most its stack length; the source faults, or produces a negative base, otherwise.
- Monitors.MonitorLeave: requires the object to have a lock; the source faults reading the owner of a missing lock.
- Exceptions.RaiseException: requires a current frame; the source faults in pushFrame when there is none.
- JavaStrings.FromJavaString: rejects a managed string whose offset and count do not lie inside its char array, and the back trace then faults on it. The decoder `util.fromJavaString` is not part of this model, so what it does with such a string is this model's choice, not the source's.
- ClassInit.PushClassInitFrame: requires a current frame even when no static initializer ends up being pushed; contexts are only empty transiently.

## Findings

| source | as written | input that shows it | evidently intended | confidence | as-written member | corrected member |
|---|---|---|---|---|---|---|
| context.js:64-74 | the superclass's static initializer is pushed before the class's own, so the class's frame is on top and runs first | class 1 extends class 0, both uninitialized, with static initializers `ma` and `mb`: the frames are resumed as [mb, ma] | superclasses are initialized before their subclasses, so the superclass's initializer runs first: [ma, mb] | medium; not executed (depends on the interpreter resuming the current frame) | `ClassInit.SubclassFirstExample` | `ClassInit.InitInRunOrder` |
| context.js:129-132 | the code's operands are 0, 2 and 4: `new` names the unused entry, `ldc` the class-name text and `invokespecial` the message text | any class name and message: entries 0, 2 and 4 resolve to no class, string or method | operands 1, 3 and 5, which name the class, string and method entries | medium; not executed (the interpreter's operand resolution is not part of this model) | `Exceptions.TemplateOperandTargets` | `Exceptions.ResolvableOperandsResolve` |

`ClassInit.InitInRunOrder` makes the same table update as
`ClassInit.PushClassInitFrame` (both satisfy `MarkedExactly` for the pending
classes), so the table properties stated for the latter
(`InitClosedPreserved`, `WholeChainInitialized`, `InitializedUntouched`)
describe it as well; only the push order of the frames differs.

`Exceptions.ResolvableExceptionMethod` keeps the template's constant pool
and changes only the three operands. `Exceptions.RaiseException` still
pushes the bytes as written, because that is the frame the context builds;
the corrected template states what those operands are evidently meant to name.

=== FILE: backtrace.dfy ===
/** Stack-trace formatting: one line per frame, oldest first, each naming
    the method and rendering its arguments as read from the frame's locals. */
module BackTraces {
  import opened Wrappers
  import opened Values
  import opened Frames
  import opened JavaStrings

  /** Slot of the k-th parameter relative to the locals base: the sum of
      the widths of the parameters before it. */
  function SlotOffset(params: seq<Kind>, k: nat): nat
    requires k <= |params|
  {
    if k == 0 then 0 else Width(params[0]) + SlotOffset(params[1..], k - 1)
  }

  /** Each parameter starts right after the previous one: one slot further
      on, or two after a long or a double. */
  lemma {:induction false} SlotOffsetStep(params: seq<Kind>, k: nat)
    requires k < |params|
    ensures SlotOffset(params, k + 1) == SlotOffset(params, k) + Width(params[k])
    ensures SlotOffset(params, k + 1) - SlotOffset(params, k) == 2 <==> params[k] == Long || params[k] == Double
  {
    if k > 0 {
      SlotOffsetStep(params[1..], k - 1);
    }
  }

  /** Reading a locals slot; a slot past the end reads as undefined. */
  function Read(locals: seq<Value>, i: int): Value {
    if 0 <= i < |locals| then locals[i] else Undefined
  }

  /** How joining renders a value left as it is: undefined and null become
      empty text, anything else goes through the host's conversion `show`. */
  function JoinText(v: Value, show: Value -> string): string {
    match v
    case Undefined => ""
    case Null => ""
    case _ => show(v)
  }

  /** Rendering of an object-kind argument: null, a quoted string, or the
      class name in angle brackets. Reading the class of something that is
      not an object faults, and so does decoding a malformed string. */
  function RenderObject(v: Value): (r: Result<string>)
    ensures v == Null ==> r == Ok("null")
    ensures v.Ref? && ClassName(v.obj) != StringClass ==> r == Ok("<" + ClassName(v.obj) + ">")
    ensures v.Ref? && FromJavaString(v.obj).Some? ==> r == Ok("'" + FromJavaString(v.obj).value + "'")
    ensures r.Fault? <==> v.Undefined? || v.Num? || (v.Ref? && ClassName(v.obj) == StringClass && FromJavaString(v.obj).None?)
  {
    match v
    case Null => Ok("null")
    case Ref(o) =>
      if ClassName(o) == StringClass then
        match FromJavaString(o)
        case Some(s) => Ok("'" + s + "'")
        case None => Fault
      else Ok("<" + ClassName(o) + ">")
    case _ => Fault
  }

  function RenderArg(k: Kind, v: Value, show: Value -> string): Result<string> {
    if k == Reference then RenderObject(v) else Ok(JoinText(v, show))
  }

  /** The argument loop: each parameter is read at `base + lp`, after which
      `lp` advances by one slot, or by two for long and double. */
  function RenderArgs(locals: seq<Value>, base: int, params: seq<Kind>, lp: nat, show: Value -> string): Result<seq<string>>
    decreases |params|
  {
    if params == [] then Ok([])
    else
      match RenderArg(params[0], Read(locals, base + lp), show)
      case Fault => Fault
      case Ok(a) =>
        match RenderArgs(locals, base, params[1..], lp + Width(params[0]), show)
        case Fault => Fault
        case Ok(rest) => Ok([a] + rest)
  }

  /** Reference reading of the arguments: the k-th one straight from its slot offset. */
  function ArgsAtOffsets(locals: seq<Value>, base: int, params: seq<Kind>, lp: nat, show: Value -> string): seq<Result<string>> {
    seq(|params|, k requires 0 <= k < |params| => RenderArg(params[k], Read(locals, base + lp + SlotOffset(params, k)), show))
  }

  /** Past the first parameter, reading at offsets from `lp` is reading at
      offsets from `lp` plus the first parameter's width. */
  lemma ArgsAtOffsetsTail(locals: seq<Value>, base: int, params: seq<Kind>, lp: nat, show: Value -> string)
    requires params != []
    ensures var want := ArgsAtOffsets(locals, base, params, lp, show);
            && want[0] == RenderArg(params[0], Read(locals, base + lp), show)
            && want[1..] == ArgsAtOffsets(locals, base, params[1..], lp + Width(params[0]), show)
  {
    var want := ArgsAtOffsets(locals, base, params, lp, show);
    var tail := ArgsAtOffsets(locals, base, params[1..], lp + Width(params[0]), show);
    forall k | 0 <= k < |tail|
      ensures want[1..][k] == tail[k]
    {
      assert SlotOffset(params, k + 1) == Width(params[0]) + SlotOffset(params[1..], k);
    }
  }

  /** The loop reads the k-th argument at the locals base plus the widths of
      the parameters before it, and renders the arguments in order. */
  lemma {:induction false} RenderArgsAtOffsets(locals: seq<Value>, base: int, params: seq<Kind>, lp: nat, show: Value -> string)
    decreases |params|
    ensures RenderArgs(locals, base, params, lp, show) == AllOk(ArgsAtOffsets(locals, base, params, lp, show))
  {
    if params != [] {
      RenderArgsAtOffsets(locals, base, params[1..], lp + Width(params[0]), show);
      ArgsAtOffsetsTail(locals, base, params, lp, show);
    }
  }

  /** Joins `parts` with `sep` between consecutive parts. */
  function Join(parts: seq<string>, sep: string): string {
    if parts == [] then ""
    else if |parts| == 1 then parts[0]
    else parts[0] + sep + Join(parts[1..], sep)
  }

  /** The line for frame i: `Class.method(arg,arg,...)`. A synthetic frame
      has no declared class, name or signature and is not rendered. */
  function FrameLine(frames: seq<Frame>, i: nat, show: Value -> string): Result<string>
    requires i < |frames|
  {
    match frames[i].methodInfo
    case Declared(className, name, params) =>
      (match RenderArgs(Locals(frames, i), frames[i].localsBase, params, 0, show)
       case Fault => Fault
       case Ok(args) => Ok(className + "." + name + "(" + Join(args, ",") + ")"))
    case Synthetic(_, _) => Fault
  }

  /** The frame walk, oldest frame first, collecting one line per frame. */
  function CollectLines(frames: seq<Frame>, i: nat, acc: seq<string>, show: Value -> string): Result<seq<string>>
    requires i <= |frames|
    decreases |frames| - i
  {
    if i == |frames| then Ok(acc)
    else
      match FrameLine(frames, i, show)
      case Fault => Fault
      case Ok(line) => CollectLines(frames, i + 1, acc + [line], show)
  }

  /** Reference reading of the lines: frame i's line at position i. */
  function LinesFrom(frames: seq<Frame>, i: nat, show: Value -> string): seq<Result<string>>
    requires i <= |frames|
  {
    seq(|frames| - i, j requires 0 <= j < |frames| - i => FrameLine(frames, i + j, show))
  }

  lemma {:induction false} CollectLinesInOrder(frames: seq<Frame>, i: nat, acc: seq<string>, show: Value -> string)
    requires i <= |frames|
    decreases |frames| - i
    ensures CollectLines(frames, i, acc, show) ==
            match AllOk(LinesFrom(frames, i, show))
            case Fault => Fault
            case Ok(ls) => Ok(acc + ls)
  {
    if i == |frames| {
      assert acc + [] == acc;
    } else {
      assert LinesFrom(frames, i, show)[1..] == LinesFrom(frames, i + 1, show);
      assert LinesFrom(frames, i, show)[0] == FrameLine(frames, i, show);
      match FrameLine(frames, i, show)
      case Fault =>
      case Ok(line) =>
        CollectLinesInOrder(frames, i + 1, acc + [line], show);
        match AllOk(LinesFrom(frames, i + 1, show))
        case Fault =>
        case Ok(ls) =>
          assert acc + [line] + ls == acc + ([line] + ls);
    }
  }

  /** The back trace: one line per frame, oldest first, joined by
      newlines; it faults exactly when some frame's line does. */
  function BackTrace(frames: seq<Frame>, show: Value -> string): (r: Result<string>)
    ensures var lines := seq(|frames|, i requires 0 <= i < |frames| => FrameLine(frames, i, show));
            r == match AllOk(lines)
                 case Fault => Fault
                 case Ok(ls) => Ok(Join(ls, "\n"))
  {
    BackTraceLines(frames, show);
    match CollectLines(frames, 0, [], show)
    case Fault => Fault
    case Ok(lines) => Ok(Join(lines, "\n"))
  }

  lemma BackTraceLines(frames: seq<Frame>, show: Value -> string)
    ensures var lines := seq(|frames|, i requires 0 <= i < |frames| => FrameLine(frames, i, show));
            CollectLines(frames, 0, [], show) == AllOk(lines)
  {
    CollectLinesInOrder(frames, 0, [], show);
    assert LinesFrom(frames, 0, show) == seq(|frames|, i requires 0 <= i < |frames| => FrameLine(frames, i, show));
    match AllOk(LinesFrom(frames, 0, show))
    case Fault =>
    case Ok(ls) => assert [] + ls == ls;
  }

  /** A frame of `m(Ljava/lang/String;I)V` on class `Demo`, called with
      ("hi", 5), renders as `Demo.m('hi',5)`. */
  lemma StringAndIntArguments(show: Value -> string)
    requires show(Num(5)) == "5"
    ensures var caller := Frame(Declared("Demo", "main", []), [Ref(JavaString("hi", 0, 2)), Num(5)], 0);
            var callee := Frame(Declared("Demo", "m", [Reference, Int]), [], 0);
            FrameLine([caller, callee], 1, show) == Ok("Demo.m('hi',5)")
  {
    var locals := [Ref(JavaString("hi", 0, 2)), Num(5)];
    assert "hi"[0..2] == "hi";
    assert FromJavaString(JavaString("hi", 0, 2)) == Some("hi");
    assert "'" + "hi" + "'" == "'hi'";
    assert RenderObject(locals[0]) == Ok("'hi'");
    assert [Int][1..] == [];
    assert [Reference, Int][1..] == [Int];
    assert RenderArg(Int, Read(locals, 1), show) == Ok("5");
    assert RenderArgs(locals, 0, [], 2, show) == Ok([]);
    assert ["5"] + [] == ["5"];
    assert RenderArgs(locals, 0, [Int], 1, show) == Ok(["5"]);
    assert ["'hi'"] + ["5"] == ["'hi'", "5"];
    assert RenderArgs(locals, 0, [Reference, Int], 0, show) == Ok(["'hi'", "5"]);
    assert ["'hi'", "5"][1..] == ["5"];
    assert Join(["'hi'", "5"], ",") == "'hi',5";
    assert "Demo" + "." + "m" + "(" + "'hi',5" + ")" == "Demo.m('hi',5)";
  }
}

=== FILE: class_init.dfy ===
/** Class-initialization sequencing. A class is initialized at most once:
    its superclass chain first, then the class itself is marked initialized
    (before its static initializer has run) and, when it declares a static
    initializer, a frame for it is pushed on the current context. */
module ClassInit {
  import opened Wrappers
  import opened Values
  import opened Frames

  type ClassId = nat

  /** The fields of a class the context reads or writes. `rank` orders the
      hierarchy: a superclass always has a smaller rank than its subclasses,
      which is what makes the superclass chain finite. `staticFields` is
      absent until initialization creates it. */
  datatype ClassInfo = ClassInfo(
    superClass: Option<ClassId>,
    rank: nat,
    initialized: bool,
    staticFields: Option<map<string, Value>>)

  /** Loaded classes, and each class's own no-argument static initializer
      (`<clinit>` with descriptor `()V`) when it declares one. */
  datatype ClassTable = ClassTable(classes: map<ClassId, ClassInfo>, clinit: map<ClassId, MethodInfo>)

  /** Superclasses are loaded and rank strictly below their subclasses. */
  predicate WellFormed(t: ClassTable) {
    forall c {:trigger t.classes[c].superClass} :: c in t.classes && t.classes[c].superClass.Some? ==>
      && t.classes[c].superClass.value in t.classes
      && t.classes[t.classes[c].superClass.value].rank < t.classes[c].rank
  }

  /** An initialized class has an initialized superclass. */
  predicate InitClosed(t: ClassTable)
    requires WellFormed(t)
  {
    forall c {:trigger t.classes[c].superClass} :: c in t.classes && t.classes[c].initialized && t.classes[c].superClass.Some? ==>
      t.classes[t.classes[c].superClass.value].initialized
  }

  /** `t'` has the same classes, hierarchy, ranks and static initializers as `t`. */
  predicate SameHierarchy(t: ClassTable, t': ClassTable) {
    && t'.clinit == t.clinit
    && t'.classes.Keys == t.classes.Keys
    && forall c :: c in t.classes ==>
         t'.classes[c].superClass == t.classes[c].superClass && t'.classes[c].rank == t.classes[c].rank
  }

  lemma SameHierarchyWellFormed(t: ClassTable, t': ClassTable)
    requires WellFormed(t) && SameHierarchy(t, t')
    ensures WellFormed(t')
  {
  }

  /** The superclass chain of `c`: the root class first, `c` last, each
      element the superclass of the next. */
  function Chain(t: ClassTable, c: ClassId): (ch: seq<ClassId>)
    requires WellFormed(t) && c in t.classes
    decreases t.classes[c].rank
    ensures |ch| > 0 && ch[|ch| - 1] == c
    ensures forall k :: k in ch ==> k in t.classes && t.classes[k].rank <= t.classes[c].rank
    ensures t.classes[ch[0]].superClass.None?
    ensures forall i :: 0 < i < |ch| ==> t.classes[ch[i]].superClass == Some(ch[i - 1])
  {
    match t.classes[c].superClass
    case None => [c]
    case Some(s) => Chain(t, s) + [c]
  }

  /** The classes initializing `c` has to initialize: `c` and its ancestors
      up to, not including, the first one already initialized; root-most first. */
  function Pending(t: ClassTable, c: ClassId): (p: seq<ClassId>)
    requires WellFormed(t) && c in t.classes
    decreases t.classes[c].rank
    ensures t.classes[c].initialized <==> p == []
    ensures p != [] ==> p[|p| - 1] == c
    ensures forall k :: k in p ==> k in t.classes && !t.classes[k].initialized && t.classes[k].rank <= t.classes[c].rank
    ensures forall i, j :: 0 <= i < j < |p| ==> t.classes[p[i]].rank < t.classes[p[j]].rank
  {
    if t.classes[c].initialized then []
    else
      match t.classes[c].superClass
      case None => [c]
      case Some(s) => Pending(t, s) + [c]
  }

  /** The static initializers of `ks` that exist, in the order of `ks`. */
  function Clinits(t: ClassTable, ks: seq<ClassId>): seq<MethodInfo>
  {
    if ks == [] then []
    else OwnClinit(t, ks[0]) + Clinits(t, ks[1..])
  }

  /** The bookkeeping step of initialization. */
  function MarkInitialized(info: ClassInfo): ClassInfo {
    info.(initialized := true, staticFields := Some(map[]))
  }

  /** The static initializer of `k`, as a sequence of zero or one method. */
  function OwnClinit(t: ClassTable, k: ClassId): seq<MethodInfo> {
    if k in t.clinit then [t.clinit[k]] else []
  }

  lemma {:induction false} ClinitsAppend(t: ClassTable, a: seq<ClassId>, b: seq<ClassId>)
    ensures Clinits(t, a + b) == Clinits(t, a) + Clinits(t, b)
  {
    if a == [] {
      assert a + b == b;
    } else {
      var ab := a + b;
      assert ab[0] == a[0];
      assert ab[1..] == a[1..] + b;
      assert Clinits(t, ab) == OwnClinit(t, a[0]) + Clinits(t, a[1..] + b);
      ClinitsAppend(t, a[1..], b);
    }
  }

  /** `after` is `before` with one frame pushed, with no consumed arguments,
      for each method of `ms` in turn. */
  predicate PushedInOrder(before: seq<Frame>, after: seq<Frame>, ms: seq<MethodInfo>) {
    && |before| > 0
    && |after| == |before| + |ms|
    && after[..|before|] == before
    && forall i :: 0 <= i < |ms| ==>
         after[|before| + i] == Frame(ms[i], [], |after[|before| + i - 1].stack|)
  }

  lemma PushedInOrderTrans(a: seq<Frame>, b: seq<Frame>, c: seq<Frame>, ms1: seq<MethodInfo>, ms2: seq<MethodInfo>)
    requires PushedInOrder(a, b, ms1) && PushedInOrder(b, c, ms2)
    ensures PushedInOrder(a, c, ms1 + ms2)
  {
    assert c[..|a|] == c[..|b|][..|a|];
    forall i | 0 <= i < |ms1 + ms2|
      ensures c[|a| + i] == Frame((ms1 + ms2)[i], [], |c[|a| + i - 1].stack|)
    {
      if i < |ms1| {
        assert c[|a| + i] == c[..|b|][|a| + i] == b[|a| + i];
        assert c[|a| + i - 1] == c[..|b|][|a| + i - 1] == b[|a| + i - 1];
      } else {
        var i2 := i - |ms1|;
        assert |a| + i == |b| + i2;
        assert (ms1 + ms2)[i] == ms2[i2];
      }
    }
  }

  /** `t'` is `t` with exactly the classes `p` marked initialized. */
  predicate MarkedExactly(t: ClassTable, t': ClassTable, p: seq<ClassId>) {
    && SameHierarchy(t, t')
    && (forall k :: k in t.classes && k !in p ==> t'.classes[k] == t.classes[k])
    && (forall k :: k in p ==> k in t.classes && t'.classes[k] == MarkInitialized(t.classes[k]))
  }

  /** Unfolding of `Pending` for an uninitialized class with a superclass. */
  lemma PendingStep(t: ClassTable, c: ClassId, s: ClassId)
    requires WellFormed(t) && c in t.classes && !t.classes[c].initialized
    requires t.classes[c].superClass == Some(s)
    ensures Pending(t, c) == Pending(t, s) + [c]
    ensures c !in Pending(t, s)
  {
  }

  /** The last step of initializing `c`: mark it and push its static
      initializer frame, if it has one, on top of `ctx`. */
  function InitSelf(ctx: Context, t: ClassTable, c: ClassId): (r: (Context, ClassTable))
    requires c in t.classes && |ctx.frames| > 0
    ensures r.1 == t.(classes := t.classes[c := MarkInitialized(t.classes[c])])
    ensures r.0.id == ctx.id && r.0.thread == ctx.thread
    ensures PushedInOrder(ctx.frames, r.0.frames, OwnClinit(t, c))
  {
    var t2 := t.(classes := t.classes[c := MarkInitialized(t.classes[c])]);
    if c in t2.clinit then (PushFrame(ctx, t2.clinit[c], 0).0, t2) else (ctx, t2)
  }

  lemma MarkStep(t: ClassTable, t1: ClassTable, c: ClassId, prior: seq<ClassId>)
    requires MarkedExactly(t, t1, prior) && c in t.classes && c !in prior
    ensures MarkedExactly(t, t1.(classes := t1.classes[c := MarkInitialized(t1.classes[c])]), prior + [c])
  {
  }

  /** Finishing the initialization of `c` once its superclass chain has
      been handled: what was pending for the superclass is done, and `c`
      itself is marked and gets its static initializer frame. */
  function FinishInit(ctx: Context, t: ClassTable, c: ClassId, ctx1: Context, t1: ClassTable, prior: seq<ClassId>): (r: (Context, ClassTable))
    requires WellFormed(t) && c in t.classes && !t.classes[c].initialized
    requires Pending(t, c) == prior + [c] && c !in prior
    requires MarkedExactly(t, t1, prior) && PushedInOrder(ctx.frames, ctx1.frames, Clinits(t, prior))
    requires ctx1.id == ctx.id && ctx1.thread == ctx.thread
    ensures MarkedExactly(t, r.1, Pending(t, c))
    ensures r.1.classes[c].initialized
    ensures r.0.id == ctx.id && r.0.thread == ctx.thread
    ensures PushedInOrder(ctx.frames, r.0.frames, Clinits(t, Pending(t, c)))
  {
    var (ctx2, t2) := InitSelf(ctx1, t1, c);
    MarkStep(t, t1, c, prior);
    ClinitsAppend(t, prior, [c]);
    assert Clinits(t, [c]) == OwnClinit(t, c) + Clinits(t, []);
    assert OwnClinit(t, c) + [] == OwnClinit(t, c);
    assert Clinits(t, Pending(t, c)) == Clinits(t, prior) + OwnClinit(t, c);
    assert OwnClinit(t1, c) == OwnClinit(t, c);
    PushedInOrderTrans(ctx.frames, ctx1.frames, ctx2.frames, Clinits(t, prior), OwnClinit(t, c));
    (ctx2, t2)
  }

  /** Initializes `c`: a no-op when already initialized; otherwise the
      superclass first, then `c` is marked initialized with fresh static
      fields, and a frame for its static initializer (if any) is pushed with
      no consumed arguments. Returns the new context and class table. */
  function PushClassInitFrame(ctx: Context, t: ClassTable, c: ClassId): (r: (Context, ClassTable))
    requires WellFormed(t) && c in t.classes && |ctx.frames| > 0
    decreases t.classes[c].rank
    ensures MarkedExactly(t, r.1, Pending(t, c))
    ensures r.1.classes[c].initialized
    ensures r.0.id == ctx.id && r.0.thread == ctx.thread
    ensures PushedInOrder(ctx.frames, r.0.frames, Clinits(t, Pending(t, c)))
  {
    if t.classes[c].initialized then
      assert ctx.frames[..|ctx.frames|] == ctx.frames;
      (ctx, t)
    else
      match t.classes[c].superClass
      case None =>
        PendingLast(t, c, []);
        assert ctx.frames[..|ctx.frames|] == ctx.frames;
        FinishInit(ctx, t, c, ctx, t, [])
      case Some(s) =>
        var (ctx1, t1) := PushClassInitFrame(ctx, t, s);
        PendingLast(t, c, Pending(t, s));
        FinishInit(ctx, t, c, ctx1, t1, Pending(t, s))
  }

  /** For an uninitialized class, `Pending` is what its superclass has pending, then the class. */
  lemma PendingLast(t: ClassTable, c: ClassId, prior: seq<ClassId>)
    requires WellFormed(t) && c in t.classes && !t.classes[c].initialized
    requires prior == if t.classes[c].superClass.None? then [] else Pending(t, t.classes[c].superClass.value)
    ensures Pending(t, c) == prior + [c]
    ensures c !in prior
  {
  }

  /** `Pending` is a contiguous segment of the superclass chain: each element
      is the superclass of the next, and the first one has no superclass or
      an initialized one. Superclass initializer frames are therefore pushed
      first and end up beneath the subclass ones. */
  lemma {:induction false} PendingIsChainSegment(t: ClassTable, c: ClassId)
    requires WellFormed(t) && c in t.classes
    decreases t.classes[c].rank
    ensures var p := Pending(t, c);
            p != [] ==> (t.classes[p[0]].superClass.None? ||
                         t.classes[t.classes[p[0]].superClass.value].initialized)
    ensures var p := Pending(t, c);
            forall i :: 0 < i < |p| ==> t.classes[p[i]].superClass == Some(p[i - 1])
  {
    if !t.classes[c].initialized && t.classes[c].superClass.Some? {
      var s := t.classes[c].superClass.value;
      PendingIsChainSegment(t, s);
      PendingStep(t, c, s);
      var ps := Pending(t, s);
      if ps != [] {
        assert ps[|ps| - 1] == s;
      }
    }
  }

  /** Under closure, an initialized class has its whole chain initialized. */
  lemma {:induction false} ChainOfInitialized(t: ClassTable, c: ClassId)
    requires WellFormed(t) && InitClosed(t) && c in t.classes && t.classes[c].initialized
    decreases t.classes[c].rank
    ensures forall k :: k in Chain(t, c) ==> t.classes[k].initialized
  {
    if t.classes[c].superClass.Some? {
      ChainOfInitialized(t, t.classes[c].superClass.value);
    }
  }

  /** Under closure, the pending classes are exactly the uninitialized
      members of the superclass chain. */
  lemma {:induction false} PendingIsUninitializedChain(t: ClassTable, c: ClassId)
    requires WellFormed(t) && InitClosed(t) && c in t.classes
    decreases t.classes[c].rank
    ensures forall k :: k in Pending(t, c) <==> k in Chain(t, c) && !t.classes[k].initialized
  {
    if t.classes[c].initialized {
      ChainOfInitialized(t, c);
    } else if t.classes[c].superClass.Some? {
      var s := t.classes[c].superClass.value;
      PendingIsUninitializedChain(t, s);
      PendingStep(t, c, s);
    }
  }

  /** After initialization, an initialized class `k` has an initialized superclass. */
  lemma {:induction false} InitClosedAt(ctx: Context, t: ClassTable, c: ClassId, k: ClassId)
    requires WellFormed(t) && InitClosed(t) && c in t.classes && |ctx.frames| > 0
    requires k in t.classes
    ensures var t' := PushClassInitFrame(ctx, t, c).1;
            t'.classes[k].initialized && t'.classes[k].superClass.Some? ==>
              t'.classes[t'.classes[k].superClass.value].initialized
  {
    var t' := PushClassInitFrame(ctx, t, c).1;
    var p := Pending(t, c);
    PendingIsChainSegment(t, c);
    if t'.classes[k].initialized && t'.classes[k].superClass.Some? {
      var s := t.classes[k].superClass.value;
      if k in p {
        var i :| 0 <= i < |p| && p[i] == k;
        if i > 0 {
          assert s == p[i - 1];
        }
      }
    }
  }

  /** Initialization keeps the closure invariant. */
  lemma {:induction false} InitClosedPreserved(ctx: Context, t: ClassTable, c: ClassId)
    requires WellFormed(t) && InitClosed(t) && c in t.classes && |ctx.frames| > 0
    ensures var t' := PushClassInitFrame(ctx, t, c).1;
            WellFormed(t') && InitClosed(t')
  {
    var t' := PushClassInitFrame(ctx, t, c).1;
    SameHierarchyWellFormed(t, t');
    forall k | k in t'.classes && t'.classes[k].initialized && t'.classes[k].superClass.Some?
      ensures t'.classes[t'.classes[k].superClass.value].initialized
    {
      InitClosedAt(ctx, t, c, k);
    }
  }

  /** After initializing `c` from a closed table, `c` and every class of its
      superclass chain are initialized. */
  lemma WholeChainInitialized(ctx: Context, t: ClassTable, c: ClassId)
    requires WellFormed(t) && InitClosed(t) && c in t.classes && |ctx.frames| > 0
    ensures var t' := PushClassInitFrame(ctx, t, c).1;
            forall k :: k in Chain(t, c) ==> k in t'.classes && t'.classes[k].initialized
  {
    PendingIsUninitializedChain(t, c);
  }

  /** A class that is already initialized is left exactly as it was: its
      static fields are never reset, and nothing is pushed for it. */
  lemma InitializedUntouched(ctx: Context, t: ClassTable, c: ClassId, k: ClassId)
    requires WellFormed(t) && c in t.classes && |ctx.frames| > 0
    requires k in t.classes && t.classes[k].initialized
    ensures PushClassInitFrame(ctx, t, c).1.classes[k] == t.classes[k]
    ensures k !in Pending(t, c)
  {
  }

  /** Initializing an initialized class is a no-op, hence initializing twice
      is the same as initializing once. */
  lemma Idempotent(ctx: Context, t: ClassTable, c: ClassId)
    requires WellFormed(t) && c in t.classes && |ctx.frames| > 0
    ensures var r := PushClassInitFrame(ctx, t, c);
            WellFormed(r.1) && |r.0.frames| > 0 && PushClassInitFrame(r.0, r.1, c) == r
  {
    var r := PushClassInitFrame(ctx, t, c);
    SameHierarchyWellFormed(t, r.1);
  }

  /** Reversal of a sequence. */
  function Reverse<T>(s: seq<T>): (r: seq<T>)
    ensures |r| == |s|
    ensures forall i :: 0 <= i < |s| ==> r[i] == s[|s| - 1 - i]
  {
    if s == [] then [] else Reverse(s[1..]) + [s[0]]
  }

  lemma ReverseReverse<T>(s: seq<T>)
    ensures Reverse(Reverse(s)) == s
  {
  }

  /** The methods of the frames pushed on top of `before`, from the top
      down: the order in which an interpreter that always runs the current
      frame, and pops it when it returns, gets to run them. */
  function ResumeOrder(before: seq<Frame>, after: seq<Frame>): (r: seq<MethodInfo>)
    requires |before| <= |after|
    ensures |r| == |after| - |before|
    ensures forall i :: 0 <= i < |r| ==> r[i] == after[|after| - 1 - i].methodInfo
  {
    seq(|after| - |before|, i requires 0 <= i < |after| - |before| => after[|after| - 1 - i].methodInfo)
  }

  lemma ResumeOrderOfPushed(before: seq<Frame>, after: seq<Frame>, ms: seq<MethodInfo>)
    requires PushedInOrder(before, after, ms)
    ensures ResumeOrder(before, after) == Reverse(ms)
  {
    forall i | 0 <= i < |ms|
      ensures ResumeOrder(before, after)[i] == Reverse(ms)[i]
    {
      var j := |ms| - 1 - i;
      assert after[|before| + j] == Frame(ms[j], [], |after[|before| + j - 1].stack|);
    }
  }

  /** As written, the pending initializers are pushed superclass first, so
      they are resumed subclass first: when the class itself has a static
      initializer, that frame is the current one afterwards. */
  lemma SubclassInitializerResumesFirst(ctx: Context, t: ClassTable, c: ClassId)
    requires WellFormed(t) && c in t.classes && |ctx.frames| > 0
    ensures var r := PushClassInitFrame(ctx, t, c);
            ResumeOrder(ctx.frames, r.0.frames) == Reverse(Clinits(t, Pending(t, c)))
    ensures var r := PushClassInitFrame(ctx, t, c);
            !t.classes[c].initialized && c in t.clinit ==>
              Current(r.0).Some? && Current(r.0).value.methodInfo == t.clinit[c]
  {
    var r := PushClassInitFrame(ctx, t, c);
    var ms := Clinits(t, Pending(t, c));
    ResumeOrderOfPushed(ctx.frames, r.0.frames, ms);
    if !t.classes[c].initialized && c in t.clinit {
      var prior := if t.classes[c].superClass.None? then [] else Pending(t, t.classes[c].superClass.value);
      PendingLast(t, c, prior);
      ClinitsAppend(t, prior, [c]);
      assert Clinits(t, [c]) == [t.clinit[c]] + Clinits(t, []);
      assert ms[|ms| - 1] == t.clinit[c];
      assert ResumeOrder(ctx.frames, r.0.frames)[0] == ms[|ms| - 1];
    }
  }

  /** Pushes a frame with no consumed arguments for each method of `ms`, in order. */
  function PushAll(ctx: Context, ms: seq<MethodInfo>): (r: Context)
    requires |ctx.frames| > 0
    ensures PushedInOrder(ctx.frames, r.frames, ms)
    ensures r.id == ctx.id && r.thread == ctx.thread
    decreases |ms|
  {
    if ms == [] then
      assert ctx.frames[..|ctx.frames|] == ctx.frames;
      ctx
    else
      var ctx1 := PushFrame(ctx, ms[0], 0).0;
      assert PushedInOrder(ctx.frames, ctx1.frames, [ms[0]]);
      assert [ms[0]] + ms[1..] == ms;
      var r := PushAll(ctx1, ms[1..]);
      PushedInOrderTrans(ctx.frames, ctx1.frames, r.frames, [ms[0]], ms[1..]);
      r
  }

  /** Initialization with the superclass-first run order: the same table
      update, with the pending static initializers pushed subclass first so
      that the root-most one is current and each one runs before those of
      its subclasses. */
  function InitInRunOrder(ctx: Context, t: ClassTable, c: ClassId): (r: (Context, ClassTable))
    requires WellFormed(t) && c in t.classes && |ctx.frames| > 0
    ensures MarkedExactly(t, r.1, Pending(t, c))
    ensures r.0.id == ctx.id && r.0.thread == ctx.thread
    ensures |ctx.frames| <= |r.0.frames| && r.0.frames[..|ctx.frames|] == ctx.frames
    ensures ResumeOrder(ctx.frames, r.0.frames) == Clinits(t, Pending(t, c))
    ensures PushedInOrder(ctx.frames, r.0.frames, Reverse(Clinits(t, Pending(t, c))))
  {
    var ms := Clinits(t, Pending(t, c));
    var ctx' := PushAll(ctx, Reverse(ms));
    ResumeOrderOfPushed(ctx.frames, ctx'.frames, Reverse(ms));
    ReverseReverse(ms);
    (ctx', PushClassInitFrame(ctx, t, c).1)
  }

  /** Class 1 extends class 0, neither initialized, with static initializers `ma` and `mb`. */
  function TwoClasses(ma: MethodInfo, mb: MethodInfo): ClassTable {
    ClassTable(map[0 := ClassInfo(None, 0, false, None), 1 := ClassInfo(Some(0), 1, false, None)],
               map[0 := ma, 1 := mb])
  }

  lemma TwoClassesPending(ma: MethodInfo, mb: MethodInfo)
    ensures WellFormed(TwoClasses(ma, mb)) && 1 in TwoClasses(ma, mb).classes
    ensures Clinits(TwoClasses(ma, mb), Pending(TwoClasses(ma, mb), 1)) == [ma, mb]
  {
    var t := TwoClasses(ma, mb);
    assert Pending(t, 0) == [0];
    assert Pending(t, 1) == [0, 1];
    assert Clinits(t, [1]) == [mb];
    assert Clinits(t, [0, 1]) == [ma] + Clinits(t, [1]);
  }

  lemma TwoPendingResumeOrder(ctx: Context, t: ClassTable, c: ClassId, ma: MethodInfo, mb: MethodInfo)
    requires WellFormed(t) && c in t.classes && |ctx.frames| > 0
    requires Clinits(t, Pending(t, c)) == [ma, mb]
    ensures ResumeOrder(ctx.frames, PushClassInitFrame(ctx, t, c).0.frames) == [mb, ma]
  {
    SubclassInitializerResumesFirst(ctx, t, c);
    assert Reverse([ma, mb]) == [mb, ma];
  }

  /** A class whose uninitialized superclass also has a static initializer:
      as written, the subclass's initializer is resumed before the superclass's. */
  lemma SubclassFirstExample(ctx: Context, ma: MethodInfo, mb: MethodInfo)
    requires |ctx.frames| > 0
    ensures WellFormed(TwoClasses(ma, mb)) && 1 in TwoClasses(ma, mb).classes
    ensures ResumeOrder(ctx.frames, PushClassInitFrame(ctx, TwoClasses(ma, mb), 1).0.frames) == [mb, ma]
  {
    TwoClassesPending(ma, mb);
    TwoPendingResumeOrder(ctx, TwoClasses(ma, mb), 1, ma, mb);
  }

  /** The same classes in the superclass-first order: the superclass's initializer runs first. */
  lemma SuperclassFirstExample(ctx: Context, ma: MethodInfo, mb: MethodInfo)
    requires |ctx.frames| > 0
    ensures WellFormed(TwoClasses(ma, mb)) && 1 in TwoClasses(ma, mb).classes
    ensures ResumeOrder(ctx.frames, InitInRunOrder(ctx, TwoClasses(ma, mb), 1).0.frames) == [ma, mb]
  {
    TwoClassesPending(ma, mb);
  }
}

=== FILE: exceptions.dfy ===
/** Raising a runtime exception as ordinary bytecode: a synthetic method
    whose constant pool names the exception class and message, and whose
    code allocates the exception, calls its one-string constructor and
    throws it, is pushed as a frame; the context then signals `Yield`. */
module Exceptions {
  import opened Wrappers
  import opened Frames

  const InitName: string := "<init>"
  const StringCtorDescriptor: string := "(Ljava/lang/String;)V"

  /** new #0; dup; ldc #2; invokespecial #4; athrow */
  const ThrowCode: seq<byte> := [0xbb, 0x00, 0x00, 0x59, 0x12, 0x02, 0xb7, 0x00, 0x04, 0xbf]

  /** An absent or empty message becomes the empty string; any other
      message is kept as it is. */
  function NormalizeMessage(message: Option<string>): (r: string)
    ensures message.None? ==> r == ""
    ensures message.Some? ==> r == message.value
  {
    if message.None? || message.value == "" then "" else message.value
  }

  /** The text of a UTF-8 entry. */
  function Utf8At(cp: seq<CpEntry>, i: nat): Option<string> {
    if i < |cp| && cp[i].Utf8? then Some(cp[i].bytes) else None
  }

  /** The class name a class entry resolves to. */
  function ClassNameAt(cp: seq<CpEntry>, i: nat): Option<string> {
    if i < |cp| && cp[i].ClassRef? then Utf8At(cp, cp[i].nameIndex) else None
  }

  /** The text a string entry resolves to. */
  function StringAt(cp: seq<CpEntry>, i: nat): Option<string> {
    if i < |cp| && cp[i].StringRef? then Utf8At(cp, cp[i].stringIndex) else None
  }

  datatype MethodName = MethodName(className: string, name: string, descriptor: string)

  /** The class, name and descriptor a method entry resolves to. */
  function MethodRefAt(cp: seq<CpEntry>, i: nat): Option<MethodName> {
    if i < |cp| && cp[i].MethodRef? then
      var nt := cp[i].nameAndTypeIndex;
      if nt < |cp| && cp[nt].NameAndType? then
        match (ClassNameAt(cp, cp[i].classIndex), Utf8At(cp, cp[nt].nameIndex), Utf8At(cp, cp[nt].signatureIndex))
        case (Some(c), Some(n), Some(d)) => Some(MethodName(c, n, d))
        case _ => None
      else None
    else None
  }

  /** The synthetic method template for `className` and `message`: nine
      pool entries and the fixed code, whose class entry names `className`,
      whose string entry carries `message`, and whose method entry is that
      class's one-string constructor. */
  function ExceptionMethod(className: string, message: string): (m: MethodInfo)
    ensures m.Synthetic?
    ensures |m.constantPool| == 9
    ensures m.code == ThrowCode
    ensures ClassNameAt(m.constantPool, 1) == Some(className)
    ensures StringAt(m.constantPool, 3) == Some(message)
    ensures MethodRefAt(m.constantPool, 5) == Some(MethodName(className, InitName, StringCtorDescriptor))
  {
    Synthetic(
      [ Unused,
        ClassRef(2),
        Utf8(className),
        StringRef(4),
        Utf8(message),
        MethodRef(1, 6),
        NameAndType(7, 8),
        Utf8(InitName),
        Utf8(StringCtorDescriptor) ],
      ThrowCode)
  }

  /** The two-byte operand at `i` and `i + 1` of `code`, high byte first. */
  function Operand16(code: seq<byte>, i: nat): nat
    requires i + 1 < |code|
  {
    code[i] as nat * 256 + code[i + 1] as nat
  }

  /** The operands the code carries: `new` names entry 0, `ldc` entry 2 and
      `invokespecial` entry 4, which are the unused slot, the class-name
      text and the message text, not the class, string and method entries
      at 1, 3 and 5. */
  lemma TemplateOperandTargets(className: string, message: string)
    ensures var cp := ExceptionMethod(className, message).constantPool;
            && ThrowCode[0] == 0xbb && ThrowCode[1] as int * 256 + ThrowCode[2] as int == 0
            && ThrowCode[4] == 0x12 && ThrowCode[5] == 2
            && ThrowCode[6] == 0xb7 && ThrowCode[7] as int * 256 + ThrowCode[8] as int == 4
            && ClassNameAt(cp, 0) == None && cp[0] == Unused
            && StringAt(cp, 2) == None && cp[2] == Utf8(className)
            && MethodRefAt(cp, 4) == None && cp[4] == Utf8(message)
            && ClassNameAt(cp, Operand16(ThrowCode, 1)) == None
            && StringAt(cp, ThrowCode[5] as nat) == None
            && MethodRefAt(cp, Operand16(ThrowCode, 7)) == None
  {
  }

  /** new #1; dup; ldc #3; invokespecial #5; athrow: the same instructions
      with operands naming the class, string and method entries. */
  const ResolvableThrowCode: seq<byte> := [0xbb, 0x00, 0x01, 0x59, 0x12, 0x03, 0xb7, 0x00, 0x05, 0xbf]

  /** The template with operands that resolve: the same constant pool. */
  function ResolvableExceptionMethod(className: string, message: string): MethodInfo {
    Synthetic(ExceptionMethod(className, message).constantPool, ResolvableThrowCode)
  }

  /** Each operand of the corrected code resolves through the pool to what
      its instruction needs: `new` to the class, `ldc` to the message, and
      `invokespecial` to the class's one-string constructor. */
  lemma ResolvableOperandsResolve(className: string, message: string)
    ensures var m := ResolvableExceptionMethod(className, message);
            && m.code[0] == 0xbb && m.code[4] == 0x12 && m.code[6] == 0xb7
            && ClassNameAt(m.constantPool, Operand16(m.code, 1)) == Some(className)
            && StringAt(m.constantPool, m.code[5] as nat) == Some(message)
            && MethodRefAt(m.constantPool, Operand16(m.code, 7)) == Some(MethodName(className, InitName, StringCtorDescriptor))
  {
  }

  /** Pushes the synthetic frame for `className`/`message` with no consumed
      arguments and signals `Yield`. */
  function RaiseException(ctx: Context, className: string, message: Option<string>): (r: (Context, Outcome))
    requires |ctx.frames| > 0
    ensures r.1 == Yield
    ensures r.0.id == ctx.id && r.0.thread == ctx.thread
    ensures var n := |ctx.frames|;
            && |r.0.frames| == n + 1
            && r.0.frames[..n] == ctx.frames
            && r.0.frames[n].stack == []
            && r.0.frames[n].localsBase == |ctx.frames[n - 1].stack|
    ensures var m := r.0.frames[|ctx.frames|].methodInfo;
            && m.Synthetic?
            && m.code == ThrowCode
            && ClassNameAt(m.constantPool, 1) == Some(className)
            && (message.None? || message == Some("") ==> StringAt(m.constantPool, 3) == Some(""))
            && (message.Some? ==> StringAt(m.constantPool, 3) == Some(message.value))
    ensures var cp := r.0.frames[|ctx.frames|].methodInfo.constantPool;
            && |cp| == 9
            && cp[0] == Unused
            && cp[2] == Utf8(className)
            && cp[4] == Utf8(if message.Some? then message.value else "")
            && MethodRefAt(cp, 5) == Some(MethodName(className, InitName, StringCtorDescriptor))
  {
    var m := ExceptionMethod(className, NormalizeMessage(message));
    (PushFrame(ctx, m, 0).0, Yield)
  }
}

=== FILE: frames.dfy ===
/** The per-thread execution context: a sequence of frames whose last element
    is the current frame. A callee's local-variable window is the caller's
    operand stack itself; in this model that aliasing is structural: the
    locals of frame i ARE the stack of frame i-1, held once. */
module Frames {
  import opened Wrappers
  import opened Values

  newtype byte = x: int | 0 <= x < 256

  /** Constant-pool entries, one constructor per shape of entry. */
  datatype CpEntry =
    | Unused
    | ClassRef(nameIndex: nat)
    | Utf8(bytes: string)
    | StringRef(stringIndex: nat)
    | MethodRef(classIndex: nat, nameAndTypeIndex: nat)
    | NameAndType(nameIndex: nat, signatureIndex: nat)

  /** Method metadata. A declared method comes from a loaded class (its
      signature already parsed into parameter kinds); a synthetic method is
      fabricated by the runtime and carries only a constant pool and code. */
  datatype MethodInfo =
    | Declared(className: string, name: string, params: seq<Kind>)
    | Synthetic(constantPool: seq<CpEntry>, code: seq<byte>)

  datatype Frame = Frame(methodInfo: MethodInfo, stack: seq<Value>, localsBase: nat)

  type ThreadId = nat
  type CtxId = nat

  datatype Context = Context(id: CtxId, thread: ThreadId, frames: seq<Frame>)

  /** Control outcome of a context operation: normal completion, suspension
      on monitor contention, or re-entry after a runtime-initiated frame push. */
  datatype Outcome = Done | Pause | Yield

  /** The currently executing frame, absent when there are no frames. */
  function Current(c: Context): (r: Option<Frame>)
    ensures r.Some? <==> |c.frames| > 0
    ensures r.Some? ==> r.value == c.frames[|c.frames| - 1]
  {
    if |c.frames| == 0 then None else Some(c.frames[|c.frames| - 1])
  }

  /** The local-variable storage of frame i: its caller's operand stack. The
      bottom frame has no caller and is given no locals here. */
  function Locals(frames: seq<Frame>, i: nat): seq<Value>
    requires i < |frames|
  {
    if i == 0 then [] else frames[i - 1].stack
  }

  /** Assigning `n` to the length of a host array: truncates, or pads with holes. */
  function SetLength(s: seq<Value>, n: nat): (r: seq<Value>)
    ensures |r| == n
    ensures forall i :: 0 <= i < n && i < |s| ==> r[i] == s[i]
    ensures forall i :: |s| <= i < n ==> r[i] == Undefined
  {
    if n <= |s| then s[..n] else s + seq(n - |s|, _ => Undefined)
  }

  /** Pushes a frame for `m` whose locals window starts `consumes` slots below
      the top of the caller's stack; returns the new context and the callee. */
  function PushFrame(c: Context, m: MethodInfo, consumes: nat): (r: (Context, Frame))
    requires |c.frames| > 0
    requires consumes <= |c.frames[|c.frames| - 1].stack|
    ensures var n := |c.frames|; var caller := c.frames[n - 1];
            && |r.0.frames| == n + 1
            && r.0.frames[..n] == c.frames
            && Current(r.0) == Some(r.1)
            && r.1.methodInfo == m
            && r.1.stack == []
            && r.1.localsBase + consumes == |caller.stack|
            && Locals(r.0.frames, n) == caller.stack
            && Locals(r.0.frames, n)[r.1.localsBase..] == caller.stack[|caller.stack| - consumes..]
    ensures r.0.id == c.id && r.0.thread == c.thread
  {
    var caller := c.frames[|c.frames| - 1];
    var callee := Frame(m, [], |caller.stack| - consumes);
    (c.(frames := c.frames + [callee]), callee)
  }

  /** Pops the current frame and returns the new current frame (the caller).
      The caller's stack is cut back to the callee's locals base, but only
      when that base is non-zero: a base of exactly 0 skips the truncation. */
  function PopFrame(c: Context): (r: (Context, Frame))
    requires |c.frames| >= 2
    ensures var n := |c.frames|; var callee := c.frames[n - 1]; var caller := c.frames[n - 2];
            && |r.0.frames| == n - 1
            && r.0.frames[..n - 2] == c.frames[..n - 2]
            && Current(r.0) == Some(r.1)
            && r.1.methodInfo == caller.methodInfo
            && r.1.localsBase == caller.localsBase
            && (callee.localsBase != 0 ==> r.1.stack == SetLength(caller.stack, callee.localsBase))
            && (callee.localsBase != 0 && callee.localsBase <= |caller.stack| ==>
                  r.1.stack == caller.stack[..callee.localsBase])
            && (callee.localsBase == 0 ==> r.1.stack == caller.stack)
    ensures r.0.id == c.id && r.0.thread == c.thread
  {
    var n := |c.frames|;
    var callee := c.frames[n - 1];
    var caller := c.frames[n - 2];
    var caller' := if callee.localsBase != 0 then caller.(stack := SetLength(caller.stack, callee.localsBase)) else caller;
    (c.(frames := c.frames[..n - 2] + [caller']), caller')
  }

  /** What a running callee does to the storage it can see: it replaces its
      own operand stack (pushes, pops, and nested calls that have returned),
      or it stores into one of its locals. A callee's locals are its caller's
      stack, so storing local `index` writes the caller's stack at
      `localsBase + index`; a store past the end extends that array, leaving
      holes in between. */
  datatype Step = SetStack(s: seq<Value>) | Store(index: nat, v: Value)

  /** Assigning element `i` of a host array. */
  function StoreAt(s: seq<Value>, i: nat, v: Value): (r: seq<Value>)
    ensures |r| == if i < |s| then |s| else i + 1
    ensures r[i] == v
    ensures forall j :: 0 <= j < |s| && j != i ==> r[j] == s[j]
    ensures forall j :: |s| <= j < i ==> r[j] == Undefined
  {
    if i < |s| then s[i := v] else s + seq(i - |s|, _ => Undefined) + [v]
  }

  /** The caller's stack after the callee's steps, computed on the stack
      alone: only the stores count, each at `base` plus its local index. */
  function ApplyStores(s: seq<Value>, base: nat, steps: seq<Step>): (r: seq<Value>)
    decreases |steps|
  {
    if steps == [] then s
    else
      match steps[0]
      case SetStack(_) => ApplyStores(s, base, steps[1..])
      case Store(i, v) => ApplyStores(StoreAt(s, base + i, v), base, steps[1..])
  }

  /** The stores leave every slot below `base` alone and never shorten the stack. */
  lemma {:induction false} StoresAboveBase(s: seq<Value>, base: nat, steps: seq<Step>)
    ensures |ApplyStores(s, base, steps)| >= |s|
    ensures forall j :: 0 <= j < base && j < |s| ==> ApplyStores(s, base, steps)[j] == s[j]
    decreases |steps|
  {
    if steps != [] {
      match steps[0]
      case SetStack(_) => StoresAboveBase(s, base, steps[1..]);
      case Store(i, v) => StoresAboveBase(StoreAt(s, base + i, v), base, steps[1..]);
    }
  }

  /** One step of the current frame, a callee with a caller below it. */
  function RunStep(c: Context, st: Step): (r: Context)
    requires |c.frames| >= 2
    ensures |r.frames| == |c.frames|
    ensures r.id == c.id && r.thread == c.thread
  {
    var n := |c.frames|;
    var callee := c.frames[n - 1];
    var caller := c.frames[n - 2];
    match st
    case SetStack(s) => c.(frames := c.frames[..n - 1] + [callee.(stack := s)])
    case Store(i, v) =>
      c.(frames := c.frames[..n - 2] + [caller.(stack := StoreAt(caller.stack, callee.localsBase + i, v)), callee])
  }

  /** The callee running `steps`. No frame below the caller changes, the
      callee keeps its method and base, the caller keeps everything but its
      stack, and the caller's stack is exactly what the stores through the
      callee's locals make of it. */
  function Run(c: Context, steps: seq<Step>): (r: Context)
    requires |c.frames| >= 2
    ensures var n := |c.frames|;
            && |r.frames| == n
            && r.frames[..n - 2] == c.frames[..n - 2]
            && r.frames[n - 1].methodInfo == c.frames[n - 1].methodInfo
            && r.frames[n - 1].localsBase == c.frames[n - 1].localsBase
            && r.frames[n - 2] == c.frames[n - 2].(stack := r.frames[n - 2].stack)
            && r.frames[n - 2].stack == ApplyStores(c.frames[n - 2].stack, c.frames[n - 1].localsBase, steps)
    ensures r.id == c.id && r.thread == c.thread
    decreases |steps|
  {
    if steps == [] then c else Run(RunStep(c, steps[0]), steps[1..])
  }

  /** Calling a method that consumes k > 0 arguments but not the whole stack,
      letting it run any steps, then returning, leaves every frame as it was
      except that the caller's stack loses exactly its top k values: whatever
      the callee stored into its locals is cut away with them. */
  lemma PushPopRoundTrip(c: Context, m: MethodInfo, k: nat, steps: seq<Step>)
    requires |c.frames| > 0
    requires k < |c.frames[|c.frames| - 1].stack|
    ensures var n := |c.frames|; var caller := c.frames[n - 1];
            var r := PopFrame(Run(PushFrame(c, m, k).0, steps));
            && r.0 == c.(frames := c.frames[..n - 1] + [caller.(stack := caller.stack[..|caller.stack| - k])])
            && |r.1.stack| == |caller.stack| - k
  {
    var n := |c.frames|;
    var caller := c.frames[n - 1];
    var base := |caller.stack| - k;
    var pushed := PushFrame(c, m, k).0;
    var p := Run(pushed, steps);
    var s' := ApplyStores(caller.stack, base, steps);
    StoresAboveBase(caller.stack, base, steps);
    assert pushed.frames[n - 1] == caller && pushed.frames[n].localsBase == base;
    assert p.frames[n - 1] == caller.(stack := s');
    assert SetLength(s', base) == caller.stack[..base] by {
      assert s'[..base] == caller.stack[..base];
    }
    assert p.frames[..n - 1] == c.frames[..n - 1];
  }

  /** The zero-base quirk: when a call consumes the caller's whole stack the
      callee's base is 0 and popping skips the truncation. The consumed
      arguments stay on the caller's stack, and so does every local the
      callee stored, each at its own index. */
  lemma PushPopZeroBase(c: Context, m: MethodInfo, steps: seq<Step>)
    requires |c.frames| > 0
    ensures var n := |c.frames|; var caller := c.frames[n - 1];
            var pushed := PushFrame(c, m, |caller.stack|);
            && pushed.1.localsBase == 0
            && PopFrame(Run(pushed.0, steps)).0
                 == c.(frames := c.frames[..n - 1] + [caller.(stack := ApplyStores(caller.stack, 0, steps))])
  {
    var n := |c.frames|;
    var p := Run(PushFrame(c, m, |c.frames[n - 1].stack|).0, steps);
    assert p.frames[..n - 1] == c.frames[..n - 1];
  }

  /** A callee that consumed the caller's only value as its local 0 and
      stored 99 there returns to a caller whose stack holds 99, not its
      original argument. */
  lemma ZeroBaseKeepsStoredLocal(m: MethodInfo, caller: MethodInfo)
    ensures var c := Context(0, 0, [Frame(caller, [Num(1)], 0)]);
            PopFrame(Run(PushFrame(c, m, 1).0, [Store(0, Num(99))])).1.stack == [Num(99)]
  {
    var c := Context(0, 0, [Frame(caller, [Num(1)], 0)]);
    var pushed := Context(0, 0, [Frame(caller, [Num(1)], 0), Frame(m, [], 0)]);
    assert PushFrame(c, m, 1).0 == pushed;
    var ran := Context(0, 0, [Frame(caller, [Num(99)], 0), Frame(m, [], 0)]);
    assert StoreAt([Num(1)], 0, Num(99)) == [Num(99)];
    assert RunStep(pushed, Store(0, Num(99))) == ran;
    assert Run(pushed, [Store(0, Num(99))]) == Run(ran, []);
  }
}

=== FILE: java_strings.dfy ===
/** Managed strings: a `java/lang/String` object holding a char array with
    an offset and a count. Host strings and char arrays are both sequences
    of chars, each char standing for one UTF-16 code unit. */
module JavaStrings {
  import opened Wrappers
  import opened Values

  /** The host text of a managed string: `count` chars of `value` from
      `offset`; none when the object is not a managed string or its fields
      do not describe a range of its array. */
  function FromJavaString(o: Object): (r: Option<string>)
    ensures r.Some? <==> o.JavaString? && 0 <= o.offset && 0 <= o.count && o.offset + o.count <= |o.value|
    ensures r.Some? ==> |r.value| == o.count &&
                        forall i :: 0 <= i < o.count ==> r.value[i] == o.value[o.offset + i]
  {
    match o
    case JavaString(value, offset, count) =>
      if 0 <= offset && 0 <= count && offset + count <= |value| then Some(value[offset..offset + count]) else None
    case Instance(_) => None
  }

  /** Materializes host string `s` as a managed string: a zero-filled char
      array of length |s| is filled with the code units of `s`, offset 0,
      count |s|. */
  method NewString(s: string) returns (o: Object)
    ensures o.JavaString? && ClassName(o) == StringClass
    ensures o.offset == 0 && o.count == |s| && |o.value| == |s|
    ensures forall n :: 0 <= n < |s| ==> o.value[n] == s[n]
    ensures FromJavaString(o) == Some(s)
  {
    var chars: seq<char> := seq(|s|, _ => '\0');
    var n := 0;
    while n < |s|
      invariant 0 <= n <= |s|
      invariant |chars| == |s|
      invariant forall k :: 0 <= k < n ==> chars[k] == s[k]
    {
      chars := chars[n := s[n]];
      n := n + 1;
    }
    o := JavaString(chars, 0, |s|);
    assert chars[0..|s|] == s;
  }
}

=== FILE: monitors.dfy ===
/** Per-object reentrant monitors. An object with no entry in the lock table
    has no lock; otherwise its lock records the owning thread, the reentrancy
    count and the FIFO queue of contexts waiting for it. Waking waiters
    appends them to an abstract FIFO of contexts scheduled for re-execution. */
module Monitors {
  import opened Wrappers
  import opened Frames

  type ObjId = nat

  datatype Lock = Lock(thread: ThreadId, count: int, waiters: seq<CtxId>)

  type Locks = map<ObjId, Lock>

  /** Every installed lock is held at least once. */
  predicate ValidLocks(locks: Locks) {
    forall o :: o in locks ==> locks[o].count >= 1
  }

  /** How many times `obj` is currently held (0 when it has no lock). */
  function Depth(locks: Locks, obj: ObjId): int {
    if obj in locks then locks[obj].count else 0
  }

  lemma UpdateTwice(m: Locks, k: ObjId, v1: Lock, v2: Lock)
    ensures m[k := v1][k := v2] == m[k := v2]
  {
  }

  lemma UpdateThenRemove(m: Locks, k: ObjId, v: Lock)
    requires k !in m
    ensures m[k := v] - {k} == m
  {
  }

  lemma UpdateSame(m: Locks, k: ObjId)
    requires k in m
    ensures m[k := m[k]] == m
  {
  }

  lemma SeqAssoc(a: seq<CtxId>, b: seq<CtxId>, c: seq<CtxId>)
    ensures (a + b) + c == a + (b + c)
  {
  }

  /** Acquires the monitor of `obj` for context `self`, or enqueues `self`
      as a waiter and pauses when another thread holds it. */
  function MonitorEnter(locks: Locks, obj: ObjId, self: Context): (r: (Locks, Outcome))
    ensures r.1 != Yield
    ensures r.1 == Pause <==> obj in locks && locks[obj].thread != self.thread
    ensures r.1 == Done ==>
              && obj in r.0
              && r.0[obj].thread == self.thread
              && r.0[obj].count == Depth(locks, obj) + 1
              && r.0[obj].waiters == (if obj in locks then locks[obj].waiters else [])
    ensures r.1 == Pause ==>
              && obj in r.0
              && r.0[obj].thread == locks[obj].thread
              && r.0[obj].count == locks[obj].count
              && r.0[obj].waiters == locks[obj].waiters + [self.id]
    ensures r.0.Keys == locks.Keys + {obj}
    ensures forall o :: o in locks && o != obj ==> r.0[o] == locks[o]
    ensures ValidLocks(locks) ==> ValidLocks(r.0)
  {
    if obj !in locks then
      (locks[obj := Lock(self.thread, 1, [])], Done)
    else if locks[obj].thread == self.thread then
      (locks[obj := locks[obj].(count := locks[obj].count + 1)], Done)
    else
      (locks[obj := locks[obj].(waiters := locks[obj].waiters + [self.id])], Pause)
  }

  /** Result of a release: the lock table, the scheduled FIFO, and whether
      the not-the-owner diagnostic was emitted. */
  datatype Released = Released(locks: Locks, scheduled: seq<CtxId>, warned: bool)

  /** Releases the monitor of `obj` once. A non-owner only gets a diagnostic.
      When the count drops to zero the lock is removed and every waiter is
      scheduled, in the order it was enqueued. The lock must exist: the host
      faults reading the owner of a missing lock. */
  function MonitorLeave(locks: Locks, scheduled: seq<CtxId>, obj: ObjId, self: Context): (r: Released)
    requires obj in locks
    ensures r.warned <==> locks[obj].thread != self.thread
    ensures r.warned ==> r.locks == locks && r.scheduled == scheduled
    ensures !r.warned && obj in r.locks ==>
              && locks[obj].count > 1
              && r.locks[obj] == Lock(self.thread, locks[obj].count - 1, locks[obj].waiters)
              && r.scheduled == scheduled
    ensures !r.warned && obj !in r.locks ==>
              && locks[obj].count <= 1
              && r.scheduled == scheduled + locks[obj].waiters
    ensures r.locks.Keys <= locks.Keys
    ensures forall o :: o in locks && o != obj ==> o in r.locks && r.locks[o] == locks[o]
    ensures ValidLocks(locks) ==> ValidLocks(r.locks)
  {
    var lock := locks[obj];
    if lock.thread != self.thread then
      Released(locks, scheduled, true)
    else if lock.count - 1 > 0 then
      Released(locks[obj := lock.(count := lock.count - 1)], scheduled, false)
    else
      Released(locks - {obj}, scheduled + lock.waiters, false)
  }

  /** `n` successive enters by `self`; the flag says whether all completed. */
  function EnterTimes(locks: Locks, obj: ObjId, self: Context, n: nat): (Locks, bool)
    decreases n
  {
    if n == 0 then (locks, true)
    else
      var (l1, o) := MonitorEnter(locks, obj, self);
      var (l2, ok) := EnterTimes(l1, obj, self, n - 1);
      (l2, ok && o == Done)
  }

  /** `n` successive leaves by `self`; faults if the lock disappears before the last. */
  function LeaveTimes(locks: Locks, scheduled: seq<CtxId>, obj: ObjId, self: Context, n: nat): Result<Released>
    decreases n
  {
    if n == 0 then Ok(Released(locks, scheduled, false))
    else if obj !in locks then Fault
    else
      var r1 := MonitorLeave(locks, scheduled, obj, self);
      match LeaveTimes(r1.locks, r1.scheduled, obj, self, n - 1)
      case Fault => Fault
      case Ok(r2) => Ok(r2.(warned := r1.warned || r2.warned))
  }

  /** Ids of a sequence of contexts, in order. */
  function Ids(ctxs: seq<Context>): (ids: seq<CtxId>)
    ensures |ids| == |ctxs|
    ensures forall i :: 0 <= i < |ctxs| ==> ids[i] == ctxs[i].id
  {
    if ctxs == [] then [] else [ctxs[0].id] + Ids(ctxs[1..])
  }

  /** Each context of `ctxs` in turn tries to enter the monitor of `obj`. */
  function EnterAll(locks: Locks, obj: ObjId, ctxs: seq<Context>): (Locks, seq<Outcome>)
    decreases |ctxs|
  {
    if ctxs == [] then (locks, [])
    else
      var (l1, o) := MonitorEnter(locks, obj, ctxs[0]);
      var (l2, os) := EnterAll(l1, obj, ctxs[1..]);
      (l2, [o] + os)
  }

  /** Reentrant acquisition by the owner: n more enters add exactly n to the
      count, leave owner and waiters alone, and all complete. */
  lemma {:induction false} EnterTimesOwned(locks: Locks, obj: ObjId, self: Context, n: nat)
    requires obj in locks && locks[obj].thread == self.thread
    ensures EnterTimes(locks, obj, self, n) == (locks[obj := locks[obj].(count := locks[obj].count + n)], true)
  {
    if n > 0 {
      var l1 := MonitorEnter(locks, obj, self).0;
      EnterTimesOwned(l1, obj, self, n - 1);
      assert l1[obj := l1[obj].(count := l1[obj].count + (n - 1))]
          == locks[obj := locks[obj].(count := locks[obj].count + n)];
    } else {
      assert locks[obj := locks[obj].(count := locks[obj].count + n)] == locks;
    }
  }

  /** n leaves by the owner of a lock held n + j times: with j > 0 the lock
      stays owned with count j; with j == 0 it is removed and its waiters are
      scheduled in order. No diagnostic either way. */
  lemma {:induction false} LeaveTimesOwned(locks: Locks, scheduled: seq<CtxId>, obj: ObjId, self: Context, n: nat, j: nat)
    requires obj in locks && locks[obj].thread == self.thread
    requires locks[obj].count == n + j && n + j >= 1
    ensures j > 0 ==> LeaveTimes(locks, scheduled, obj, self, n)
                      == Ok(Released(locks[obj := locks[obj].(count := j)], scheduled, false))
    ensures j == 0 ==> LeaveTimes(locks, scheduled, obj, self, n)
                       == Ok(Released(locks - {obj}, scheduled + locks[obj].waiters, false))
  {
    var lock := locks[obj];
    if n == 0 {
      assert lock.(count := j) == lock;
      UpdateSame(locks, obj);
    } else if n == 1 && j == 0 {
      var r1 := MonitorLeave(locks, scheduled, obj, self);
      assert r1 == Released(locks - {obj}, scheduled + lock.waiters, false);
      assert LeaveTimes(r1.locks, r1.scheduled, obj, self, 0) == Ok(r1);
    } else {
      var l1 := locks[obj := lock.(count := n + j - 1)];
      assert MonitorLeave(locks, scheduled, obj, self) == Released(l1, scheduled, false);
      LeaveTimesOwned(l1, scheduled, obj, self, n - 1, j);
      assert l1[obj].(count := j) == lock.(count := j);
      UpdateTwice(locks, obj, lock.(count := n + j - 1), lock.(count := j));
      assert l1 - {obj} == locks - {obj};
    }
  }

  /** N enters by one context on an unlocked object followed by N leaves
      give back exactly the original lock table: the lock is absent again,
      nothing was scheduled, no enter paused and no diagnostic was emitted. */
  lemma EnterLeaveBalanced(locks: Locks, scheduled: seq<CtxId>, obj: ObjId, self: Context, n: nat)
    requires obj !in locks
    ensures EnterTimes(locks, obj, self, n).1
    ensures LeaveTimes(EnterTimes(locks, obj, self, n).0, scheduled, obj, self, n)
            == Ok(Released(locks, scheduled, false))
  {
    if n > 0 {
      var l1 := locks[obj := Lock(self.thread, 1, [])];
      EnterTimesOwned(l1, obj, self, n - 1);
      var l := locks[obj := Lock(self.thread, n, [])];
      assert MonitorEnter(locks, obj, self) == (l1, Done);
      assert l1[obj].(count := l1[obj].count + (n - 1)) == Lock(self.thread, n, []);
      UpdateTwice(locks, obj, Lock(self.thread, 1, []), Lock(self.thread, n, []));
      assert EnterTimes(l1, obj, self, n - 1) == (l, true);
      assert EnterTimes(locks, obj, self, n) == (l, true);
      LeaveTimesOwned(l, scheduled, obj, self, n, 0);
      UpdateThenRemove(locks, obj, Lock(self.thread, n, []));
      assert scheduled + l[obj].waiters == scheduled;
    } else {
      assert EnterTimes(locks, obj, self, n) == (locks, true);
    }
  }

  /** Cross-thread exclusion: while a thread holds the monitor, every enter
      by contexts of other threads pauses, owner and count stay put, and the
      contenders join the waiter queue in arrival order. */
  lemma {:induction false} ContendersQueue(locks: Locks, obj: ObjId, ctxs: seq<Context>)
    requires obj in locks
    requires forall i :: 0 <= i < |ctxs| ==> ctxs[i].thread != locks[obj].thread
    ensures EnterAll(locks, obj, ctxs).0 == locks[obj := locks[obj].(waiters := locks[obj].waiters + Ids(ctxs))]
    ensures |EnterAll(locks, obj, ctxs).1| == |ctxs|
    ensures forall i :: 0 <= i < |ctxs| ==> EnterAll(locks, obj, ctxs).1[i] == Pause
  {
    var lock := locks[obj];
    if ctxs == [] {
      assert lock.waiters + Ids(ctxs) == lock.waiters;
      assert lock.(waiters := lock.waiters) == lock;
      UpdateSame(locks, obj);
    } else {
      var lock1 := lock.(waiters := lock.waiters + [ctxs[0].id]);
      var l1 := locks[obj := lock1];
      assert MonitorEnter(locks, obj, ctxs[0]) == (l1, Pause);
      assert l1[obj].thread == lock.thread;
      assert forall i :: 0 <= i < |ctxs[1..]| ==> ctxs[1..][i].thread != l1[obj].thread by {
        forall i | 0 <= i < |ctxs[1..]| ensures ctxs[1..][i].thread != l1[obj].thread {
          assert ctxs[1..][i] == ctxs[i + 1];
        }
      }
      ContendersQueue(l1, obj, ctxs[1..]);
      var rest := EnterAll(l1, obj, ctxs[1..]);
      assert EnterAll(locks, obj, ctxs) == (rest.0, [Pause] + rest.1);
      assert Ids(ctxs) == [ctxs[0].id] + Ids(ctxs[1..]);
      SeqAssoc(lock.waiters, [ctxs[0].id], Ids(ctxs[1..]));
      assert lock1.(waiters := lock1.waiters + Ids(ctxs[1..])) == lock.(waiters := lock.waiters + Ids(ctxs));
      UpdateTwice(locks, obj, lock1, lock.(waiters := lock.waiters + Ids(ctxs)));
    }
  }

  /** Wake ordering: contexts that queued on a monitor held once by `owner`
      are all scheduled, in the order they queued, when `owner` releases it. */
  lemma WakeInOrder(locks: Locks, scheduled: seq<CtxId>, obj: ObjId, owner: Context, ctxs: seq<Context>)
    requires obj !in locks
    requires forall i :: 0 <= i < |ctxs| ==> ctxs[i].thread != owner.thread
    ensures var l1 := MonitorEnter(locks, obj, owner).0;
            var l2 := EnterAll(l1, obj, ctxs).0;
            obj in l2 && MonitorLeave(l2, scheduled, obj, owner) == Released(locks, scheduled + Ids(ctxs), false)
  {
    var lock := Lock(owner.thread, 1, []);
    var l1 := locks[obj := lock];
    assert MonitorEnter(locks, obj, owner).0 == l1;
    ContendersQueue(l1, obj, ctxs);
    var lock2 := Lock(owner.thread, 1, Ids(ctxs));
    assert [] + Ids(ctxs) == Ids(ctxs);
    UpdateTwice(locks, obj, lock, lock2);
    var l2 := locks[obj := lock2];
    assert EnterAll(l1, obj, ctxs).0 == l2;
    assert MonitorLeave(l2, scheduled, obj, owner) == Released(l2 - {obj}, scheduled + Ids(ctxs), false);
    UpdateThenRemove(locks, obj, lock2);
  }
}

=== FILE: values.dfy ===
/** Values held on operand stacks and in local-variable windows. */
module Values {

  /** Class name of the managed string class. */
  const StringClass: string := "java/lang/String"

  /** A heap object as far as the execution context looks at it: either an
      instance of some class, or a managed string whose `value` is its char
      array (one char per UTF-16 code unit) with its `offset` and `count` fields. */
  datatype Object =
    | Instance(className: string)
    | JavaString(value: seq<char>, offset: int, count: int)

  function ClassName(o: Object): string {
    match o
    case Instance(c) => c
    case JavaString(_, _, _) => StringClass
  }

  /** A slot of an operand stack. `Undefined` is what the host yields for a
      slot that was never written (a hole, or a read past the end). Numbers
      are abstract: their payload is never inspected by the context. */
  datatype Value = Undefined | Null | Num(n: int) | Ref(obj: Object)

  /** Parameter kinds as produced by signature parsing. */
  datatype Kind = Boolean | Byte | Char | Short | Int | Float | Long | Double | Reference

  /** Number of local-variable slots a parameter of kind `k` occupies. */
  function Width(k: Kind): (w: nat)
    ensures w == 2 <==> k == Long || k == Double
    ensures 1 <= w <= 2
  {
    match k
    case Long => 2
    case Double => 2
    case _ => 1
  }
}

=== FILE: wrappers.dfy ===
/** Option and Result datatypes used throughout the model. A `Fault` stands
    for a host-level error (a TypeError in the interpreter) that the source
    does not catch. */
module Wrappers {

  datatype Option<+T> = None | Some(value: T)

  datatype Result<+T> = Ok(value: T) | Fault

  /** Collects a sequence of results: the first fault wins, otherwise all values in order. */
  function AllOk<T>(rs: seq<Result<T>>): (r: Result<seq<T>>)
    ensures r.Ok? <==> forall i :: 0 <= i < |rs| ==> rs[i].Ok?
    ensures r.Ok? ==> |r.value| == |rs| && forall i :: 0 <= i < |rs| ==> rs[i] == Ok(r.value[i])
  {
    if rs == [] then Ok([])
    else
      match rs[0]
      case Fault => Fault
      case Ok(x) =>
        match AllOk(rs[1..])
        case Fault => Fault
        case Ok(xs) => Ok([x] + xs)
  }
}
